=== FILE: README.md ===
# Cart store of the E-Commerce-Frontend demo, in Dafny

This project models `CartManager` from `assets/js/script.js`: the browser-side
store that keeps an ordered list of cart line items, merges a repeated
"add to cart" into an existing entry, removes and re-quantifies entries by id,
empties the cart, derives the order summary (item count, subtotal, shipping,
tax, total), and writes the list through to a single local-storage key,
`amazonCart`, after every change. It also models the +/- quantity steppers of
the product page and of the edit-quantity dialog.

Layout:

- `wrappers.dfy` — `Option` (a field the caller left out) and `Result` (a call that throws).
- `items.dfy` — `LineItem`, `Cart`, `ProductInput`, the `find`-style scan, the two sums (item count, subtotal), and the two cart predicates used as invariants (all quantities positive; unique (id, color) pairs).
- `cart_ops.dfy` — add / remove / update on the list, as pure functions, with their lemmas.
- `totals.dfy` — `calculateTotals` as a function and as the left-to-right `reduce` loop, with the worked examples.
- `store.dfy` — the store: cart plus storage map, the constructor (`loadCart`), write-through after each mutation, and runs of operations.
- `stepper.dfy` — the quantity steppers.

Modelling choices:

- Ids are `Num(int)` or `Str(string)`. The source compares them with `===`, so a number never equals a string. JavaScript truthiness of an id is `Truthy`: `0` and `""` are falsy.
- The input to `addToCart` has optional `id` and `color`. The merge test compares these RAW optional fields, before any default is applied. So an input without an id or a colour never merges with a stored entry.
- `Date.now()` is a parameter `now` of the add operation.
- Prices are exact `real`s and quantities are unbounded `int`s. JavaScript doubles and the `toFixed(2)` display rounding are not modelled.
- Local storage is a `map` from keys to stored values. A stored value is either the serialisation of a cart or some other text. `JSON.stringify`/`JSON.parse` are abstracted as that distinction.
- The store is a plain value `Store(cart, storage)`. Each operation returns the next store.

Behaviour of the code that a reader might expect to be otherwise, modelled as written:

- The storage key is `amazonCart`, not `cart`.
- A stored value that does not parse makes `loadCart` throw (`LoadCart` returns `Failure`). It is not read as an empty cart. Only a missing or empty value gives the empty cart.
- Unique (id, color) pairs are not an invariant of the store. They are kept only by runs whose adds supply a truthy id and a non-empty colour (`ReplayKeepsKeysUnique`). `DefaultColorDuplicatesKey` shows one add that breaks them.
- Positive quantities are not an invariant either. `addToCart` accepts any quantity. They are kept only when every add brings a positive quantity (`ReplayKeepsPositive`).
- An update whose id matches nothing does not write storage at all.

## Model

| member | source | states |
|---|---|---|
| Items.FindFirst | assets/js/script.js:32-34 | the scan of `Array.prototype.find`: the result is the first position whose element satisfies the test; nothing is found exactly when no element does |
| CartOps.MergeIndex | assets/js/script.js:32-34 | the entry `addToCart` merges into is the first whose id and colour equal the raw input's; none exactly when no entry matches |
| CartOps.IdIndex | assets/js/script.js:60 | the entry `updateQuantity` touches is the first with that id; none exactly when no entry has it |
| CartOps.AddToCart | assets/js/script.js:31-47 | with a matching entry, only the first match changes, its quantity raised by the input quantity, and the length stays the same; otherwise exactly one entry is appended after the unchanged old entries, with the input's fields, the input id when truthy or else `now`, and the input colour when non-empty or else `black` |
| CartOps.AddWithoutKeyAppends | assets/js/script.js:32-45 | an input with no id or no colour never merges: the cart grows by exactly one and the old entries keep their places |
| CartOps.AddItemCount | assets/js/script.js:36-46 | in both the merge and the append case, the item count rises by exactly the input quantity |
| CartOps.AddSubtotal | assets/js/script.js:36-44 | a merge adds the input quantity at the stored entry's price and ignores the input's price; an append adds the input price times the input quantity |
| CartOps.AddSameKeyTwiceMerges | assets/js/script.js:32-46 | two adds with the same truthy id and the same non-empty colour, on a cart without that pair, leave one new entry holding the sum of both quantities |
| CartOps.AddTwoColorsKeepsTwo | assets/js/script.js:32-46 | two adds with the same id and different colours leave two new, distinct entries |
| CartOps.AddKeepsKeysUnique | assets/js/script.js:32-46 | if all (id, color) pairs are distinct and the input supplies a truthy id and a non-empty colour, they stay distinct after the add |
| CartOps.DefaultColorDuplicatesKey | assets/js/script.js:32-45 | an input with id 7 and no colour skips the stored (7, black) entry and is appended as (7, black), so a cart with distinct pairs gets a duplicate |
| CartOps.AddKeepsPositive | assets/js/script.js:36-44 | all quantities stay positive after an add whose quantity is positive |
| CartOps.RemoveFromCart | assets/js/script.js:53-54 | the result holds exactly the old entries whose id differs from the given one, and it is never longer |
| CartOps.RemoveConcat | assets/js/script.js:54 | removal distributes over concatenation, so the kept entries stay in their original order |
| CartOps.RemoveNoOpIff | assets/js/script.js:54 | removal returns the cart unchanged if and only if no entry has that id |
| CartOps.RemoveUnchangedWithoutId | assets/js/script.js:54 | removal by an id that no entry has leaves the cart unchanged |
| CartOps.RemoveIdempotent | assets/js/script.js:54 | removing the same id a second time changes nothing |
| CartOps.RemoveKeepsKeysUnique | assets/js/script.js:54 | removal never creates a duplicate (id, color) pair |
| CartOps.RemoveKeepsPositive | assets/js/script.js:54 | removal keeps all quantities positive |
| CartOps.UpdateQuantity | assets/js/script.js:59-70 | with no entry of that id the cart is unchanged, even for a quantity of 0 or less; with one and a quantity of 0 or less the result is the id-removal; otherwise only the first entry of that id takes the new quantity and the length and all other entries are unchanged |
| CartOps.UpdateNonPositiveRemoves | assets/js/script.js:61-63 | after an update to 0 or a negative quantity no entry with that id remains |
| CartOps.RowMinusAtOneRemoves | assets/js/script.js:118 | the row's "-" button passes quantity - 1 unchecked, so on any quantity-1 row with a numeric id it removes every entry with that id, even an earlier one with a larger quantity |
| CartOps.RowPlusHasNoCap | assets/js/script.js:121 | the row's "+" button passes quantity + 1 with no cap, so the first row of a numeric id at 10 goes to 11 |
| CartOps.UpdateKeepsPositive | assets/js/script.js:59-70 | for any quantity passed, an update keeps all quantities positive |
| CartOps.UpdateKeepsKeysUnique | assets/js/script.js:59-70 | an update changes no (id, color) pair, so distinct pairs stay distinct |
| CartOps.UpdateItemCount | assets/js/script.js:64-65 | setting a positive quantity on the first entry of an id changes the item count by the new quantity minus the old one |
| Totals.CalculateTotals | assets/js/script.js:79-91 | the item count is the sum of the quantities and the subtotal is the sum of price times quantity; shipping is 0 exactly when the subtotal is strictly above 25 and is 5.99 otherwise; the tax is 8% of the subtotal; the total is subtotal plus shipping plus tax |
| Totals.SubtotalNonNegative | assets/js/script.js:80 | with non-negative prices and quantities, the subtotal is non-negative |
| Totals.TotalCoversSubtotal | assets/js/script.js:79-83 | with non-negative prices and quantities, total >= subtotal >= 0 |
| Totals.ComputeTotals | assets/js/script.js:80-90 | the two left-to-right `reduce` accumulations give the same summary as the sum definitions |
| Totals.ExampleFreeShipping | assets/js/script.js:80-83 | 10 x 2 plus 6 x 1 gives subtotal 26, free shipping, tax 2.08, total 28.08, count 3 |
| Totals.ExampleFlatFee | assets/js/script.js:80-83 | 5 x 1 gives subtotal 5, shipping 5.99, tax 0.40, total 11.39 |
| Totals.EmptyCartSummary | assets/js/script.js:155-157 | an empty cart has count 0 and only the shipping fee as total, and its checkout button is disabled |
| Totals.CheckoutEnabled | assets/js/script.js:155-157 | checkout is enabled exactly when the item count is non-zero; with positive quantities, exactly when the cart is non-empty |
| CartStore.LoadCart | assets/js/script.js:10-13 | a missing key gives the empty cart; the load fails exactly when the stored text is non-empty and not a serialised cart; a serialised cart loads as itself |
| CartStore.SaveCart | assets/js/script.js:16-17 | after a save, loading gives back exactly the saved cart, and no other storage key is touched |
| CartStore.Badge | assets/js/script.js:22-27 | the badge shows the sum of the quantities, the same number as the summary's item count; with positive quantities it is at least the number of entries and is 0 exactly when the cart is empty |
| CartStore.Open | assets/js/script.js:3-5 | the constructor fails exactly when the stored value is unparsable; otherwise the slot mirrors the cart and the storage is not written; with no stored value the cart and badge are empty |
| CartStore.AddToCart | assets/js/script.js:31-49 | the cart is the list add's result, written through so the slot mirrors it, with other keys kept, and the badge rises by the input quantity |
| CartStore.RemoveFromCart | assets/js/script.js:53-55 | the cart is the list removal's result (exactly the entries with another id, in their original order), and it is written through |
| CartStore.UpdateQuantity | assets/js/script.js:59-70 | an update finding no entry returns the store unchanged and does not write; otherwise the result is written through; either way a mirrored slot stays mirrored |
| CartStore.ClearCart | assets/js/script.js:72-74 | the cart is empty, the badge is 0, and the slot reads back as the empty cart |
| CartStore.ReplayKeepsMirror | assets/js/script.js:49-74 | from a mirrored store, any run of add/remove/update/clear leaves the slot mirroring the cart, so reopening gives back the same store |
| CartStore.ReplayKeepsPositive | assets/js/script.js:31-70 | positive quantities survive any run whose adds all bring positive quantities |
| CartStore.ReplayKeepsKeysUnique | assets/js/script.js:31-70 | distinct (id, color) pairs survive any run whose adds all supply a truthy id and a non-empty colour |
| CartStore.ProductPageInput | assets/js/script.js:236-242 | the product page's input never carries an id |
| CartStore.ProductPageAlwaysAppends | assets/js/script.js:236-244 | every product-page add appends one entry whose id is the timestamp, even for a product and colour already in the cart |
| CartStore.CorruptSlotFailsToOpen | assets/js/script.js:10-12 | a stored "not json" makes opening the store fail instead of giving an empty cart |
| Stepper.StepUp | assets/js/script.js:211-216 | "+" adds one exactly when the value is below 10 and otherwise leaves it; a value in [1, 10] stays in [1, 10] |
| Stepper.StepDown | assets/js/script.js:218-223 | "-" subtracts one exactly when the value is above 1 and otherwise leaves it; a value in [1, 10] stays in [1, 10] |
| Stepper.PressesStayInRange | assets/js/script.js:321-333 | any sequence of presses of the dialog's (or the product page's) steppers keeps a value that starts in [1, 10] inside [1, 10] |
| Stepper.AboveRangeOnlyComesDown | assets/js/script.js:211-223 | from a typed-in value above 10, "+" does nothing and "-" lowers it by one |

## Left out

- Rendering (`renderCartItems`, `updateCartSummary`, lines 95-158) builds HTML and writes DOM text. It is view glue. The checkout rule is modelled separately (`Totals.CheckoutEnabled`). "Free" is shown exactly when shipping is 0, and `Totals.CalculateTotals` states that shipping is 0 exactly when the subtotal is above 25.
- `toFixed(2)` rounding and JavaScript double arithmetic are left out. Amounts are exact reals, so the summary holds unrounded values.
- `parseInt`/`parseFloat` of DOM text are left out. A field that parses to `NaN` is not modelled; stepper values and quantities are integers.
- `JSON.stringify`/`JSON.parse` are a foreign library. They are abstracted as the stored value being either a serialised cart or other text. Stored text that parses as JSON but is not an array does not make `loadCart` throw. The constructor's badge count (`reduce`, lines 24-25) throws on it only when the page already has the `#cartCount` element. That badge sits in the header, which is fetched asynchronously, so it may be missing. In that case the constructor succeeds with a non-array cart, and the first throw comes later, from the first array method called on it (`find` at line 32, `filter` at line 54, `reduce` at line 80, or on the cart page `map` at line 110, since `length` at line 101 does not throw); a `clearCart` (line 73) would even recover. The model folds such text into the unparsable case, so its `Failure` from `CartStore.Open` comes earlier than the source's throw.
- CartStore.LoadCart: `Unparsable(raw)` stands only for text that is not the serialisation of a cart. The type does not enforce this, so `Unparsable("[]")` would fail to load, whereas the source loads `"[]"` as the empty cart.
- CartOps.RowPlusHasNoCap covers numeric ids only, for the same reason as the next line.
- CartOps.RowMinusAtOneRemoves covers numeric ids only. A cart row writes its id unquoted into the click handler, so a string id is re-parsed as JavaScript before it reaches `updateQuantity`. The id is evaluated as a JavaScript expression. So a string id reaches `updateQuantity` as some other value, possibly another entry's numeric id (`"12"` arrives as `12`), or the handler fails. This evaluation is not modelled.
- Stored entries with a missing, `null` or `NaN` id cannot be represented: every stored entry has an id. Such entries can only arise from hand-edited storage.
- `localStorage` failures (quota, disabled storage) are not modelled.
- Concurrency across browser tabs is not modelled.
- The success dialog, toasts, `setTimeout`, navigation (`buyNow`, `goToCart`, `proceedToCheckout`), the colour-picker click listener and `changeMainImage` are page glue.
- The dialog helpers are not modelled. `openDeleteModal` (lines 273-280) and `openQuantityModal` (lines 305-319) call no store operation: they record the id, and `openQuantityModal` reads the cart to prefill its field. `confirmClearCart` (lines 298-303) calls `clearCart` when the store exists. `confirmDelete` (line 283) and `confirmQuantityUpdate` (line 337) forward to the store only when the recorded id is truthy. So an entry with a falsy id (`Num(0)` or `Str("")`) cannot be removed or re-quantified through the dialogs.
- `addRecommendedToCart` (lines 350-363) is not modelled separately. Like the product page it passes no id, so `CartOps.AddWithoutKeyAppends` covers its adds.
- `assets/js/main.js` only fetches header and footer HTML. It has no store logic.

=== FILE: cart_ops.dfy ===
/** The list manipulations of `CartManager`, as pure functions of the cart:
    merge-or-append, remove by id, and set-or-remove a quantity. */
module CartOps {
  import opened Wrappers
  import opened Items

  /** Colour given to an appended entry when the caller supplied none. */
  const DefaultColor: string := "black"

  /** The merge test of `addToCart`: it compares the RAW input id and colour, before
      any default is applied, so an input without id or colour matches nothing. */
  predicate Merges(item: LineItem, input: ProductInput) {
    input.id == Some(item.id) && input.color == Some(item.color)
  }

  /** Position of the entry `addToCart` merges into: the first one that merges. */
  function MergeIndex(cart: Cart, input: ProductInput): (r: Option<nat>)
    ensures r.Some? ==> r.value < |cart| && Merges(cart[r.value], input)
    ensures r.Some? ==> forall j :: 0 <= j < r.value ==> !Merges(cart[j], input)
    ensures r.None? <==> forall j :: 0 <= j < |cart| ==> !Merges(cart[j], input)
  {
    FindFirst(cart, (item: LineItem) => Merges(item, input))
  }

  /** Position of the entry `updateQuantity` finds: the first one with that id. */
  function IdIndex(cart: Cart, id: ItemId): (r: Option<nat>)
    ensures r.Some? ==> r.value < |cart| && cart[r.value].id == id
    ensures r.Some? ==> forall j :: 0 <= j < r.value ==> cart[j].id != id
    ensures r.None? <==> forall j :: 0 <= j < |cart| ==> cart[j].id != id
  {
    FindFirst(cart, (item: LineItem) => item.id == id)
  }

  /** The entry appended when nothing merges: a falsy or absent id is replaced by
      the timestamp `now`, an absent or empty colour by the default colour. */
  function NewLineItem(input: ProductInput, now: int): LineItem {
    LineItem(
      if input.id.Some? && Truthy(input.id.value) then input.id.value else Num(now),
      input.name,
      input.price,
      input.image,
      input.quantity,
      if input.color.Some? && input.color.value != "" then input.color.value else DefaultColor)
  }

  /** `addToCart` on the list: the first entry whose (id, color) equals the raw input's
      gets the input quantity added; otherwise one new entry is appended at the end. */
  function AddToCart(cart: Cart, input: ProductInput, now: int): (r: Cart)
    ensures MergeIndex(cart, input).Some? ==>
              var i := MergeIndex(cart, input).value;
              |r| == |cart| && r[i] == cart[i].(quantity := cart[i].quantity + input.quantity)
              && forall j :: 0 <= j < |cart| && j != i ==> r[j] == cart[j]
    ensures MergeIndex(cart, input).None? ==>
              |r| == |cart| + 1 && r[..|cart|] == cart
              && r[|cart|].id == (if input.id.Some? && Truthy(input.id.value) then input.id.value else Num(now))
              && r[|cart|].color == (if input.color.Some? && input.color.value != "" then input.color.value else DefaultColor)
              && r[|cart|].name == input.name && r[|cart|].price == input.price
              && r[|cart|].image == input.image && r[|cart|].quantity == input.quantity
  {
    match MergeIndex(cart, input)
    case Some(i) => cart[i := cart[i].(quantity := cart[i].quantity + input.quantity)]
    case None => cart + [NewLineItem(input, now)]
  }

  /** `removeFromCart` on the list: keeps exactly the entries whose id differs. */
  function RemoveFromCart(cart: Cart, id: ItemId): (r: Cart)
    ensures |r| <= |cart|
    ensures forall x :: x in r <==> x in cart && x.id != id
  {
    if |cart| == 0 then []
    else if cart[0].id == id then RemoveFromCart(cart[1..], id)
    else [cart[0]] + RemoveFromCart(cart[1..], id)
  }

  /** `updateQuantity` on the list: with no entry of that id nothing happens; a
      non-positive quantity removes every entry of that id; otherwise only the
      first entry of that id takes the new quantity. */
  function UpdateQuantity(cart: Cart, id: ItemId, q: int): (r: Cart)
    ensures IdIndex(cart, id).None? ==> r == cart
    ensures IdIndex(cart, id).Some? && q <= 0 ==> r == RemoveFromCart(cart, id)
    ensures IdIndex(cart, id).Some? && q > 0 ==>
              var i := IdIndex(cart, id).value;
              |r| == |cart| && r[i] == cart[i].(quantity := q)
              && forall j :: 0 <= j < |cart| && j != i ==> r[j] == cart[j]
  {
    match IdIndex(cart, id)
    case None => cart
    case Some(i) =>
      if q <= 0 then RemoveFromCart(cart, id)
      else cart[i := cart[i].(quantity := q)]
  }

  // ---------------------------------------------------------------- add

  /** An input without id or without colour never merges: the cart grows by one. */
  lemma AddWithoutKeyAppends(cart: Cart, input: ProductInput, now: int)
    requires input.id.None? || input.color.None?
    ensures |AddToCart(cart, input, now)| == |cart| + 1
    ensures AddToCart(cart, input, now)[..|cart|] == cart
  {
  }

  /** Adding always raises the item count by the input quantity, merged or not. */
  lemma AddItemCount(cart: Cart, input: ProductInput, now: int)
    ensures ItemCount(AddToCart(cart, input, now)) == ItemCount(cart) + input.quantity
  {
    match MergeIndex(cart, input)
    case Some(i) =>
      SumsAfterReplace(cart, i, cart[i].(quantity := cart[i].quantity + input.quantity));
    case None =>
      ItemCountConcat(cart, [NewLineItem(input, now)]);
  }

  /** A merge prices the added units at the STORED entry's price, not the input's. */
  lemma AddSubtotal(cart: Cart, input: ProductInput, now: int)
    ensures MergeIndex(cart, input).Some? ==>
              Subtotal(AddToCart(cart, input, now))
                == Subtotal(cart) + cart[MergeIndex(cart, input).value].price * input.quantity as real
    ensures MergeIndex(cart, input).None? ==>
              Subtotal(AddToCart(cart, input, now)) == Subtotal(cart) + input.price * input.quantity as real
  {
    var m := MergeIndex(cart, input);
    if m.Some? {
      var i := m.value;
      assert AddToCart(cart, input, now) == cart[i := cart[i].(quantity := cart[i].quantity + input.quantity)];
      MergeSubtotal(cart, i, input.quantity);
    } else {
      var item := NewLineItem(input, now);
      assert AddToCart(cart, input, now) == cart + [item];
      AppendSubtotal(cart, item);
    }
  }

  lemma AppendSubtotal(cart: Cart, item: LineItem)
    ensures Subtotal(cart + [item]) == Subtotal(cart) + LineTotal(item)
  {
    SubtotalConcat(cart, [item]);
    assert [item][1..] == [];
  }

  lemma MergeSubtotal(cart: Cart, i: nat, q: int)
    requires i < |cart|
    ensures Subtotal(cart[i := cart[i].(quantity := cart[i].quantity + q)])
              == Subtotal(cart) + cart[i].price * q as real
  {
    var item := cart[i].(quantity := cart[i].quantity + q);
    SumsAfterReplace(cart, i, item);
    MergedLineTotal(cart[i], q);
  }

  lemma MergedLineTotal(item: LineItem, q: int)
    ensures LineTotal(item.(quantity := item.quantity + q)) == LineTotal(item) + item.price * q as real
  {
    var p, a, b := item.price, item.quantity as real, q as real;
    assert (item.quantity + q) as real == a + b;
    assert p * (a + b) == p * a + p * b;
  }

  /** Adding the same (id, color) twice leaves one entry carrying both quantities. */
  lemma AddSameKeyTwiceMerges(cart: Cart, a: ProductInput, b: ProductInput, t1: int, t2: int)
    requires a.id.Some? && Truthy(a.id.value) && a.color.Some? && a.color.value != ""
    requires b.id == a.id && b.color == a.color
    requires forall i :: 0 <= i < |cart| ==> !Merges(cart[i], a)
    ensures var r := AddToCart(AddToCart(cart, a, t1), b, t2);
            |r| == |cart| + 1 && r[..|cart|] == cart
            && Key(r[|cart|]) == (a.id.value, a.color.value)
            && r[|cart|].quantity == a.quantity + b.quantity
  {
    var c1 := AddToCart(cart, a, t1);
    assert Merges(c1[|cart|], b);
    forall j | 0 <= j < |cart|
      ensures !Merges(c1[j], b)
    {
      assert c1[j] == cart[j];
    }
  }

  /** The same id in two colours gives two entries. */
  lemma AddTwoColorsKeepsTwo(cart: Cart, a: ProductInput, b: ProductInput, t1: int, t2: int)
    requires a.id.Some? && Truthy(a.id.value) && a.color.Some? && a.color.value != ""
    requires b.id == a.id && b.color.Some? && b.color.value != "" && b.color != a.color
    requires forall i :: 0 <= i < |cart| ==> !Merges(cart[i], a) && !Merges(cart[i], b)
    ensures var r := AddToCart(AddToCart(cart, a, t1), b, t2);
            |r| == |cart| + 2 && r[..|cart|] == cart
            && Key(r[|cart|]) == (a.id.value, a.color.value)
            && Key(r[|cart| + 1]) == (b.id.value, b.color.value)
  {
    var c1 := AddToCart(cart, a, t1);
    forall j | 0 <= j < |c1|
      ensures !Merges(c1[j], b)
    {
      if j < |cart| {
        assert c1[j] == cart[j];
      }
    }
  }

  /** With a supplied truthy id and non-empty colour, adding keeps keys unique. */
  lemma AddKeepsKeysUnique(cart: Cart, input: ProductInput, now: int)
    requires KeysUnique(cart)
    requires input.id.Some? && Truthy(input.id.value)
    requires input.color.Some? && input.color.value != ""
    ensures KeysUnique(AddToCart(cart, input, now))
  {
    var r := AddToCart(cart, input, now);
    match MergeIndex(cart, input)
    case Some(i) =>
      assert forall k :: 0 <= k < |r| ==> Key(r[k]) == Key(cart[k]);
    case None =>
      forall i, j | 0 <= i < j < |r|
        ensures Key(r[i]) != Key(r[j])
      {
        if j == |cart| {
          assert r[i] == cart[i];
          assert !Merges(cart[i], input);
        } else {
          assert r[i] == cart[i] && r[j] == cart[j];
        }
      }
  }

  /** Without that, one add can duplicate a key: an input with id 7 and no colour
      does not merge with the stored (7, "black") entry, then is appended as (7, "black"). */
  lemma DefaultColorDuplicatesKey()
    ensures var stored := LineItem(Num(7), "Headphones", 10.0, "h.png", 1, DefaultColor);
            var input := ProductInput(Some(Num(7)), "Headphones", 10.0, "h.png", 1, None);
            var r := AddToCart([stored], input, 1000);
            KeysUnique([stored]) && !KeysUnique(r) && |r| == 2
  {
    var stored := LineItem(Num(7), "Headphones", 10.0, "h.png", 1, DefaultColor);
    var input := ProductInput(Some(Num(7)), "Headphones", 10.0, "h.png", 1, None);
    var r := AddToCart([stored], input, 1000);
    assert Key(r[0]) == Key(r[1]);
  }

  /** A positive input quantity keeps every quantity positive. */
  lemma AddKeepsPositive(cart: Cart, input: ProductInput, now: int)
    requires AllPositive(cart) && input.quantity > 0
    ensures AllPositive(AddToCart(cart, input, now))
  {
    var r := AddToCart(cart, input, now);
    match MergeIndex(cart, input)
    case Some(i) =>
    case None =>
      assert forall k :: 0 <= k < |cart| ==> r[k] == cart[k];
  }

  // ---------------------------------------------------------------- remove

  /** Removal commutes with concatenation: the survivors keep their order. */
  lemma {:induction false} RemoveConcat(a: Cart, b: Cart, id: ItemId)
    ensures RemoveFromCart(a + b, id) == RemoveFromCart(a, id) + RemoveFromCart(b, id)
  {
    if |a| == 0 {
      assert a + b == b;
    } else {
      assert (a + b)[1..] == a[1..] + b;
      RemoveConcat(a[1..], b, id);
    }
  }

  /** Removal leaves the cart alone exactly when no entry carries the id. */
  lemma RemoveNoOpIff(cart: Cart, id: ItemId)
    ensures RemoveFromCart(cart, id) == cart <==> forall i :: 0 <= i < |cart| ==> cart[i].id != id
  {
    if RemoveFromCart(cart, id) == cart {
      forall i | 0 <= i < |cart|
        ensures cart[i].id != id
      {
        assert cart[i] in RemoveFromCart(cart, id);
      }
    } else {
      RemoveUnchangedWithoutId(cart, id);
    }
  }

  lemma {:induction false} RemoveUnchangedWithoutId(cart: Cart, id: ItemId)
    ensures (forall i :: 0 <= i < |cart| ==> cart[i].id != id) ==> RemoveFromCart(cart, id) == cart
  {
    if |cart| > 0 && forall i :: 0 <= i < |cart| ==> cart[i].id != id {
      assert forall i :: 0 <= i < |cart[1..]| ==> cart[1..][i].id != id by {
        forall i | 0 <= i < |cart[1..]| ensures cart[1..][i].id != id {
          assert cart[1..][i] == cart[i + 1];
        }
      }
      RemoveUnchangedWithoutId(cart[1..], id);
      assert [cart[0]] + cart[1..] == cart;
    }
  }

  /** Removing twice is removing once. */
  lemma RemoveIdempotent(cart: Cart, id: ItemId)
    ensures RemoveFromCart(RemoveFromCart(cart, id), id) == RemoveFromCart(cart, id)
  {
    var r := RemoveFromCart(cart, id);
    assert forall i :: 0 <= i < |r| ==> r[i].id != id by {
      forall i | 0 <= i < |r| ensures r[i].id != id {
        assert r[i] in r;
      }
    }
    RemoveUnchangedWithoutId(r, id);
  }

  /** Removal never creates a duplicate key. */
  lemma {:induction false} RemoveKeepsKeysUnique(cart: Cart, id: ItemId)
    requires KeysUnique(cart)
    ensures KeysUnique(RemoveFromCart(cart, id))
  {
    if |cart| > 0 {
      var tail := cart[1..];
      assert KeysUnique(tail) by {
        forall i, j | 0 <= i < j < |tail| ensures Key(tail[i]) != Key(tail[j]) {
          assert tail[i] == cart[i + 1] && tail[j] == cart[j + 1];
        }
      }
      RemoveKeepsKeysUnique(tail, id);
      if cart[0].id != id {
        var rt := RemoveFromCart(tail, id);
        var r := [cart[0]] + rt;
        forall i, j | 0 <= i < j < |r| ensures Key(r[i]) != Key(r[j]) {
          if i == 0 {
            assert r[j] == rt[j - 1];
            assert rt[j - 1] in tail;
            var k :| 0 <= k < |tail| && tail[k] == rt[j - 1];
            assert tail[k] == cart[k + 1];
          } else {
            assert r[i] == rt[i - 1] && r[j] == rt[j - 1];
          }
        }
      }
    }
  }

  /** Removal keeps every quantity positive. */
  lemma RemoveKeepsPositive(cart: Cart, id: ItemId)
    requires AllPositive(cart)
    ensures AllPositive(RemoveFromCart(cart, id))
  {
    var r := RemoveFromCart(cart, id);
    forall i | 0 <= i < |r| ensures r[i].quantity > 0 {
      assert r[i] in cart;
    }
  }

  // ---------------------------------------------------------------- update

  /** `updateQuantity(id, 0)` or with any negative quantity leaves no entry of that id. */
  lemma UpdateNonPositiveRemoves(cart: Cart, id: ItemId, q: int)
    requires q <= 0
    ensures forall x :: x in UpdateQuantity(cart, id, q) ==> x.id != id
    ensures |UpdateQuantity(cart, id, q)| <= |cart|
  {
    if forall i :: 0 <= i < |cart| ==> cart[i].id != id {
      forall x | x in cart ensures x.id != id {
        var i :| 0 <= i < |cart| && cart[i] == x;
      }
    }
  }

  /** The "-" button of a cart row passes `quantity - 1` unchecked: on any row whose
      quantity is 1 it removes every entry with that id, including an earlier entry
      of the same id with a larger quantity. The row writes its id unquoted into the
      click handler, so only numeric ids reach `updateQuantity` unchanged. */
  lemma RowMinusAtOneRemoves(cart: Cart, i: nat)
    requires i < |cart| && cart[i].quantity == 1 && cart[i].id.Num?
    ensures UpdateQuantity(cart, cart[i].id, cart[i].quantity - 1) == RemoveFromCart(cart, cart[i].id)
  {
  }

  /** The "+" button passes `quantity + 1` with no cap: a row at 10 goes to 11
      (for a numeric id, which survives the unquoted click handler). */
  lemma RowPlusHasNoCap(cart: Cart, i: nat)
    requires i < |cart| && cart[i].quantity == 10 && cart[i].id.Num?
    requires forall j :: 0 <= j < i ==> cart[j].id != cart[i].id
    ensures UpdateQuantity(cart, cart[i].id, cart[i].quantity + 1)[i].quantity == 11
  {
  }

  /** Whatever quantity is passed, positivity survives an update. */
  lemma UpdateKeepsPositive(cart: Cart, id: ItemId, q: int)
    requires AllPositive(cart)
    ensures AllPositive(UpdateQuantity(cart, id, q))
  {
    match IdIndex(cart, id)
    case None =>
    case Some(i) =>
      if q <= 0 {
        RemoveKeepsPositive(cart, id);
      }
  }

  /** An update changes no key, so unique keys stay unique. */
  lemma UpdateKeepsKeysUnique(cart: Cart, id: ItemId, q: int)
    requires KeysUnique(cart)
    ensures KeysUnique(UpdateQuantity(cart, id, q))
  {
    match IdIndex(cart, id)
    case None =>
    case Some(i) =>
      if q <= 0 {
        RemoveKeepsKeysUnique(cart, id);
      } else {
        var r := UpdateQuantity(cart, id, q);
        assert forall k :: 0 <= k < |r| ==> Key(r[k]) == Key(cart[k]);
      }
  }

  /** Setting a quantity moves the item count by the difference. */
  lemma UpdateItemCount(cart: Cart, i: nat, q: int)
    requires i < |cart| && q > 0
    requires forall j :: 0 <= j < i ==> cart[j].id != cart[i].id
    ensures ItemCount(UpdateQuantity(cart, cart[i].id, q)) == ItemCount(cart) - cart[i].quantity + q
  {
    SumsAfterReplace(cart, i, cart[i].(quantity := q));
  }
}

=== FILE: items.dfy ===
/** The cart's data: line items, the partial description handed to `addToCart`,
    and the two sums every view of the cart is built from. */
module Items {
  import opened Wrappers

  /** A product identifier. The store compares ids with `===`, so a numeric id
      and a string id never match, whatever they print as. */
  datatype ItemId = Num(n: int) | Str(s: string)

  /** JavaScript truthiness of an id: `0` and `""` are falsy. */
  predicate Truthy(id: ItemId) {
    match id
    case Num(n) => n != 0
    case Str(s) => s != ""
  }

  /** One entry of the cart: a product in one colour, with a quantity.
      The price is an exact real number; the store never checks quantities. */
  datatype LineItem = LineItem(
    id: ItemId,
    name: string,
    price: real,
    image: string,
    quantity: int,
    color: string)

  /** The cart is an ordered list of line items. */
  type Cart = seq<LineItem>

  /** What a caller hands to `addToCart`: `id` and `color` may be left out. */
  datatype ProductInput = ProductInput(
    id: Option<ItemId>,
    name: string,
    price: real,
    image: string,
    quantity: int,
    color: Option<string>)

  /** The pair that decides whether two entries are "the same" selection. */
  function Key(item: LineItem): (ItemId, string) {
    (item.id, item.color)
  }

  /** Position of the first element satisfying `p`, as `Array.prototype.find` scans. */
  function FindFirst<T>(s: seq<T>, p: T -> bool): (r: Option<nat>)
    ensures r.Some? ==> r.value < |s| && p(s[r.value])
    ensures r.Some? ==> forall j :: 0 <= j < r.value ==> !p(s[j])
    ensures r.None? <==> forall j :: 0 <= j < |s| ==> !p(s[j])
  {
    if |s| == 0 then None
    else if p(s[0]) then Some(0)
    else
      match FindFirst(s[1..], p)
      case None => None
      case Some(k) => Some(k + 1)
  }

  /** Sum of the quantities: the value of the cart badge and of `itemCount`. */
  function ItemCount(cart: Cart): int {
    if |cart| == 0 then 0 else cart[0].quantity + ItemCount(cart[1..])
  }

  /** Line total of one entry. */
  function LineTotal(item: LineItem): real {
    item.price * item.quantity as real
  }

  /** Sum of price times quantity over the cart. */
  function Subtotal(cart: Cart): real {
    if |cart| == 0 then 0.0 else LineTotal(cart[0]) + Subtotal(cart[1..])
  }

  lemma {:induction false} ItemCountConcat(a: Cart, b: Cart)
    ensures ItemCount(a + b) == ItemCount(a) + ItemCount(b)
  {
    if |a| > 0 {
      assert (a + b)[1..] == a[1..] + b;
      ItemCountConcat(a[1..], b);
    } else {
      assert a + b == b;
    }
  }

  lemma {:induction false} SubtotalConcat(a: Cart, b: Cart)
    ensures Subtotal(a + b) == Subtotal(a) + Subtotal(b)
  {
    if |a| > 0 {
      assert (a + b)[1..] == a[1..] + b;
      SubtotalConcat(a[1..], b);
    } else {
      assert a + b == b;
    }
  }

  /** Replacing one entry changes both sums by exactly that entry's difference. */
  lemma SumsAfterReplace(cart: Cart, i: nat, item: LineItem)
    requires i < |cart|
    ensures ItemCount(cart[i := item]) == ItemCount(cart) - cart[i].quantity + item.quantity
    ensures Subtotal(cart[i := item]) == Subtotal(cart) - LineTotal(cart[i]) + LineTotal(item)
  {
    var pre, post := cart[..i], cart[i + 1..];
    assert cart == pre + ([cart[i]] + post);
    assert cart[i := item] == pre + ([item] + post);
    ItemCountConcat(pre, [cart[i]] + post);
    ItemCountConcat(pre, [item] + post);
    ItemCountConcat([cart[i]], post);
    ItemCountConcat([item], post);
    SubtotalConcat(pre, [cart[i]] + post);
    SubtotalConcat(pre, [item] + post);
    SubtotalConcat([cart[i]], post);
    SubtotalConcat([item], post);
  }

  /** Every quantity is positive, the state the UI expects. */
  predicate AllPositive(cart: Cart) {
    forall i :: 0 <= i < |cart| ==> cart[i].quantity > 0
  }

  /** With positive quantities, the quantity sum is at least the number of entries. */
  lemma {:induction false} ItemCountCoversEntries(cart: Cart)
    ensures AllPositive(cart) ==> ItemCount(cart) >= |cart|
  {
    if |cart| > 0 && AllPositive(cart) {
      assert AllPositive(cart[1..]) by {
        forall i | 0 <= i < |cart[1..]| ensures cart[1..][i].quantity > 0 {
          assert cart[1..][i] == cart[i + 1];
        }
      }
      ItemCountCoversEntries(cart[1..]);
    }
  }

  /** No two entries share an (id, color) pair, the state the merge rule aims at. */
  predicate KeysUnique(cart: Cart) {
    forall i, j :: 0 <= i < j < |cart| ==> Key(cart[i]) != Key(cart[j])
  }
}

=== FILE: stepper.dfy ===
/** The +/- quantity steppers of the product page and of the edit-quantity dialog.
    Both read the field as an integer and move it only while it stays in [1, 10]. */
module Stepper {

  const MinQuantity: int := 1
  const MaxQuantity: int := 10

  predicate InRange(v: int) {
    MinQuantity <= v <= MaxQuantity
  }

  /** The "+" button: one up, unless already at the maximum or above. */
  function StepUp(v: int): (r: int)
    ensures r == v + 1 <==> v < MaxQuantity
    ensures r == v <==> v >= MaxQuantity
    ensures InRange(v) ==> InRange(r)
  {
    if v < MaxQuantity then v + 1 else v
  }

  /** The "-" button: one down, unless already at the minimum or below. */
  function StepDown(v: int): (r: int)
    ensures r == v - 1 <==> v > MinQuantity
    ensures r == v <==> v <= MinQuantity
    ensures InRange(v) ==> InRange(r)
  {
    if v > MinQuantity then v - 1 else v
  }

  /** A sequence of presses, `true` for "+" and `false` for "-". */
  function Press(v: int, presses: seq<bool>): int
    decreases |presses|
  {
    if |presses| == 0 then v
    else Press(if presses[0] then StepUp(v) else StepDown(v), presses[1..])
  }

  /** However the buttons are pressed, a value that starts in [1, 10] stays there,
      and it can never rise by more than the number of presses. */
  lemma {:induction false} PressesStayInRange(v: int, presses: seq<bool>)
    requires InRange(v)
    ensures InRange(Press(v, presses))
    ensures Press(v, presses) <= v + |presses|
    decreases |presses|
  {
    if |presses| > 0 {
      var next := if presses[0] then StepUp(v) else StepDown(v);
      PressesStayInRange(next, presses[1..]);
    }
  }

  /** From a typed-in value above the maximum, "+" cannot move it and "-" brings it down. */
  lemma AboveRangeOnlyComesDown(v: int)
    requires v > MaxQuantity
    ensures StepUp(v) == v && StepDown(v) == v - 1
  {
  }
}

=== FILE: store.dfy ===
/** `CartManager` as a whole: the in-memory cart together with the browser's
    key-value storage it writes through to after every mutation. */
module CartStore {
  import opened Wrappers
  import opened Items
  import CartOps
  import Totals

  /** The single storage key the cart is kept under. */
  const CartKey: string := "amazonCart"

  /** A stored string, seen through `JSON.parse`: either the serialisation of a
      cart, or text that is NOT the serialisation of any cart. `Unparsable(raw)` is
      meant only for the latter; nothing here stops one from writing, say,
      `Unparsable("[]")`, which the source would load as the empty cart. */
  datatype SlotValue = Serialized(cart: Cart) | Unparsable(raw: string)

  /** The origin's local storage: string keys to stored strings. */
  type Storage = map<string, SlotValue>

  datatype LoadError = ParseError(raw: string)

  /** `loadCart`: a missing or empty value reads as the empty cart; a value that
      does not parse makes the load throw. */
  function LoadCart(storage: Storage): (r: Result<Cart, LoadError>)
    ensures CartKey !in storage ==> r == Success([])
    ensures r.Failure? <==> CartKey in storage && storage[CartKey].Unparsable? && storage[CartKey].raw != ""
    ensures CartKey in storage && storage[CartKey].Serialized? ==> r == Success(storage[CartKey].cart)
  {
    if CartKey !in storage then Success([])
    else match storage[CartKey]
      case Serialized(cart) => Success(cart)
      case Unparsable(raw) => if raw == "" then Success([]) else Failure(ParseError(raw))
  }

  /** `saveCart`: overwrite the cart's slot; every other key is untouched. */
  function SaveCart(storage: Storage, cart: Cart): (r: Storage)
    ensures LoadCart(r) == Success(cart)
    ensures r.Keys == storage.Keys + {CartKey}
    ensures forall k :: k in storage && k != CartKey ==> r[k] == storage[k]
  {
    storage[CartKey := Serialized(cart)]
  }

  datatype Store = Store(cart: Cart, storage: Storage)

  /** The storage slot reads back as the in-memory cart. */
  predicate Mirrored(s: Store) {
    LoadCart(s.storage) == Success(s.cart)
  }

  /** Every key other than the cart's is as it was, and no new key appears except the cart's. */
  predicate OtherKeysKept(s: Store, r: Store) {
    && r.storage.Keys <= s.storage.Keys + {CartKey}
    && forall k :: k in s.storage && k != CartKey ==> k in r.storage && r.storage[k] == s.storage[k]
  }

  /** The number the cart badge shows after every save: the same quantity sum as the
      summary's item count. With positive quantities it is at least the number of
      entries, so it reads 0 exactly when the cart is empty. */
  function Badge(s: Store): (r: int)
    ensures r == ItemCount(s.cart)
    ensures AllPositive(s.cart) ==> r >= |s.cart| && (r == 0 <==> |s.cart| == 0)
  {
    ItemCountCoversEntries(s.cart);
    Totals.CalculateTotals(s.cart).itemCount
  }

  /** The constructor: load from storage (propagating a parse failure); it does not write. */
  function Open(storage: Storage): (r: Result<Store, LoadError>)
    ensures r.Success? ==> Mirrored(r.value) && r.value.storage == storage
    ensures r.Failure? <==> CartKey in storage && storage[CartKey].Unparsable? && storage[CartKey].raw != ""
    ensures CartKey !in storage ==> r.Success? && r.value.cart == [] && Badge(r.value) == 0
  {
    match LoadCart(storage)
    case Success(cart) => Success(Store(cart, storage))
    case Failure(e) => Failure(e)
  }

  /** Replace the cart and write it through. */
  function Commit(s: Store, cart: Cart): (r: Store)
    ensures r.cart == cart && Mirrored(r) && OtherKeysKept(s, r)
  {
    Store(cart, SaveCart(s.storage, cart))
  }

  function AddToCart(s: Store, input: ProductInput, now: int): (r: Store)
    ensures r.cart == CartOps.AddToCart(s.cart, input, now)
    ensures Mirrored(r) && OtherKeysKept(s, r)
    ensures Badge(r) == Badge(s) + input.quantity
  {
    CartOps.AddItemCount(s.cart, input, now);
    Commit(s, CartOps.AddToCart(s.cart, input, now))
  }

  function RemoveFromCart(s: Store, id: ItemId): (r: Store)
    ensures r.cart == CartOps.RemoveFromCart(s.cart, id)
    ensures Mirrored(r) && OtherKeysKept(s, r)
  {
    Commit(s, CartOps.RemoveFromCart(s.cart, id))
  }

  /** An update that finds nothing neither changes the cart nor writes storage. */
  function UpdateQuantity(s: Store, id: ItemId, q: int): (r: Store)
    ensures r.cart == CartOps.UpdateQuantity(s.cart, id, q)
    ensures (forall i :: 0 <= i < |s.cart| ==> s.cart[i].id != id) ==> r == s
    ensures (exists i :: 0 <= i < |s.cart| && s.cart[i].id == id) ==> Mirrored(r)
    ensures OtherKeysKept(s, r)
    ensures Mirrored(s) ==> Mirrored(r)
  {
    match CartOps.IdIndex(s.cart, id)
    case None => s
    case Some(_) => Commit(s, CartOps.UpdateQuantity(s.cart, id, q))
  }

  function ClearCart(s: Store): (r: Store)
    ensures r.cart == [] && Badge(r) == 0
    ensures LoadCart(r.storage) == Success([]) && OtherKeysKept(s, r)
  {
    Commit(s, [])
  }

  /** The store operations a page can trigger. */
  datatype Action =
    | Add(input: ProductInput, now: int)
    | Remove(id: ItemId)
    | Update(id: ItemId, quantity: int)
    | Clear

  function Dispatch(s: Store, a: Action): Store {
    match a
    case Add(input, now) => AddToCart(s, input, now)
    case Remove(id) => RemoveFromCart(s, id)
    case Update(id, q) => UpdateQuantity(s, id, q)
    case Clear => ClearCart(s)
  }

  function Replay(s: Store, actions: seq<Action>): Store
    decreases |actions|
  {
    if |actions| == 0 then s else Replay(Dispatch(s, actions[0]), actions[1..])
  }

  /** Write-through: from a store whose slot mirrors its cart (as the constructor
      leaves it), any run of operations leaves the slot mirroring the cart, so
      reopening the page reproduces the same store. */
  lemma {:induction false} ReplayKeepsMirror(s: Store, actions: seq<Action>)
    requires Mirrored(s)
    ensures Mirrored(Replay(s, actions))
    ensures Open(Replay(s, actions).storage) == Success(Replay(s, actions))
    decreases |actions|
  {
    if |actions| > 0 {
      ReplayKeepsMirror(Dispatch(s, actions[0]), actions[1..]);
    }
  }

  /** Every add in the run brings a positive quantity. */
  predicate PositiveAdds(actions: seq<Action>) {
    forall i :: 0 <= i < |actions| && actions[i].Add? ==> actions[i].input.quantity > 0
  }

  /** Positive quantities survive any run whose adds are positive: the store itself
      never checks the quantity it is given. */
  lemma {:induction false} ReplayKeepsPositive(s: Store, actions: seq<Action>)
    requires AllPositive(s.cart) && PositiveAdds(actions)
    ensures AllPositive(Replay(s, actions).cart)
    decreases |actions|
  {
    if |actions| > 0 {
      match actions[0] {
        case Add(input, now) => CartOps.AddKeepsPositive(s.cart, input, now);
        case Remove(id) => CartOps.RemoveKeepsPositive(s.cart, id);
        case Update(id, q) => CartOps.UpdateKeepsPositive(s.cart, id, q);
        case Clear =>
      }
      assert PositiveAdds(actions[1..]) by {
        forall i | 0 <= i < |actions[1..]| && actions[1..][i].Add?
          ensures actions[1..][i].input.quantity > 0
        {
          assert actions[1..][i] == actions[i + 1];
        }
      }
      ReplayKeepsPositive(Dispatch(s, actions[0]), actions[1..]);
    }
  }

  /** Every add in the run supplies a truthy id and a non-empty colour. */
  predicate KeyedAdds(actions: seq<Action>) {
    forall i :: 0 <= i < |actions| && actions[i].Add? ==>
      actions[i].input.id.Some? && Truthy(actions[i].input.id.value)
      && actions[i].input.color.Some? && actions[i].input.color.value != ""
  }

  /** Unique (id, color) pairs survive only runs whose adds carry both fields. */
  lemma {:induction false} ReplayKeepsKeysUnique(s: Store, actions: seq<Action>)
    requires KeysUnique(s.cart) && KeyedAdds(actions)
    ensures KeysUnique(Replay(s, actions).cart)
    decreases |actions|
  {
    if |actions| > 0 {
      match actions[0] {
        case Add(input, now) => CartOps.AddKeepsKeysUnique(s.cart, input, now);
        case Remove(id) => CartOps.RemoveKeepsKeysUnique(s.cart, id);
        case Update(id, q) => CartOps.UpdateKeepsKeysUnique(s.cart, id, q);
        case Clear =>
      }
      assert KeyedAdds(actions[1..]) by {
        forall i | 0 <= i < |actions[1..]| && actions[1..][i].Add?
          ensures actions[1..][i].input.id.Some? && Truthy(actions[1..][i].input.id.value)
                  && actions[1..][i].input.color.Some? && actions[1..][i].input.color.value != ""
        {
          assert actions[1..][i] == actions[i + 1];
        }
      }
      ReplayKeepsKeysUnique(Dispatch(s, actions[0]), actions[1..]);
    }
  }

  /** The product page's `addToCart` builds its input without an id. */
  function ProductPageInput(name: string, price: real, image: string, quantity: int, color: string): (input: ProductInput)
    ensures input.id.None?
  {
    ProductInput(None, name, price, image, quantity, Some(color))
  }

  /** So every add from the product page appends a fresh entry, even for a product
      and colour already in the cart. */
  lemma ProductPageAlwaysAppends(s: Store, name: string, price: real, image: string, quantity: int, color: string, now: int)
    ensures var r := AddToCart(s, ProductPageInput(name, price, image, quantity, color), now);
            |r.cart| == |s.cart| + 1 && r.cart[..|s.cart|] == s.cart && r.cart[|s.cart|].id == Num(now)
  {
    CartOps.AddWithoutKeyAppends(s.cart, ProductPageInput(name, price, image, quantity, color), now);
  }

  /** A stored value that is not a serialised cart makes opening the page fail;
      it is not read as an empty cart. */
  lemma CorruptSlotFailsToOpen(storage: Storage)
    requires CartKey in storage && storage[CartKey] == Unparsable("not json")
    ensures Open(storage).Failure?
  {
  }
}

=== FILE: totals.dfy ===
/** `calculateTotals`: the derived figures of the cart summary. Amounts are exact
    reals; the two-decimal rounding of the display is not part of this module. */
module Totals {
  import opened Items

  /** Shipping is free strictly above this subtotal. */
  const FreeShippingAbove: real := 25.0
  /** Flat shipping fee charged at or below the threshold. */
  const ShippingFee: real := 5.99
  /** Flat tax rate, 8%. */
  const TaxRate: real := 0.08

  datatype Summary = Summary(subtotal: real, shipping: real, tax: real, total: real, itemCount: int)

  /** The figures shown in the order summary, derived from the cart alone. */
  function CalculateTotals(cart: Cart): (t: Summary)
    ensures t.itemCount == ItemCount(cart) && t.subtotal == Subtotal(cart)
    ensures t.shipping == 0.0 <==> t.subtotal > FreeShippingAbove
    ensures t.shipping == 0.0 || t.shipping == ShippingFee
    ensures t.tax == t.subtotal * TaxRate
    ensures t.total == t.subtotal + t.shipping + t.tax
  {
    var subtotal := Subtotal(cart);
    var shipping := if subtotal > FreeShippingAbove then 0.0 else ShippingFee;
    var tax := subtotal * TaxRate;
    Summary(subtotal, shipping, tax, subtotal + shipping + tax, ItemCount(cart))
  }

  /** Prices and quantities are all non-negative. */
  predicate NonNegative(cart: Cart) {
    forall i :: 0 <= i < |cart| ==> cart[i].price >= 0.0 && cart[i].quantity >= 0
  }

  lemma {:induction false} SubtotalNonNegative(cart: Cart)
    requires NonNegative(cart)
    ensures Subtotal(cart) >= 0.0
  {
    if |cart| > 0 {
      assert NonNegative(cart[1..]) by {
        forall i | 0 <= i < |cart[1..]|
          ensures cart[1..][i].price >= 0.0 && cart[1..][i].quantity >= 0
        {
          assert cart[1..][i] == cart[i + 1];
        }
      }
      SubtotalNonNegative(cart[1..]);
      var p, q := cart[0].price, cart[0].quantity as real;
      assert p >= 0.0 && q >= 0.0;
      assert p * q >= 0.0;
    }
  }

  /** With non-negative prices and quantities, the total never falls below the subtotal. */
  lemma TotalCoversSubtotal(cart: Cart)
    requires NonNegative(cart)
    ensures CalculateTotals(cart).total >= CalculateTotals(cart).subtotal >= 0.0
  {
    SubtotalNonNegative(cart);
  }

  /** The two `reduce` passes of `calculateTotals`, accumulating left to right. */
  method ComputeTotals(cart: Cart) returns (t: Summary)
    ensures t == CalculateTotals(cart)
  {
    var subtotal := 0.0;
    var count := 0;
    var k := 0;
    while k < |cart|
      invariant 0 <= k <= |cart|
      invariant subtotal == Subtotal(cart[..k])
      invariant count == ItemCount(cart[..k])
    {
      ItemCountConcat(cart[..k], [cart[k]]);
      SubtotalConcat(cart[..k], [cart[k]]);
      assert cart[..k + 1] == cart[..k] + [cart[k]];
      subtotal := subtotal + cart[k].price * cart[k].quantity as real;
      count := count + cart[k].quantity;
      k := k + 1;
    }
    assert cart[..k] == cart;
    var shipping := if subtotal > FreeShippingAbove then 0.0 else ShippingFee;
    var tax := subtotal * TaxRate;
    t := Summary(subtotal, shipping, tax, subtotal + shipping + tax, count);
  }

  /** The summary's checkout button is disabled exactly when the count is zero. */
  predicate CheckoutEnabled(cart: Cart): (r: bool)
    ensures r <==> ItemCount(cart) != 0
    ensures AllPositive(cart) ==> (r <==> |cart| > 0)
  {
    ItemCountCoversEntries(cart);
    CalculateTotals(cart).itemCount != 0
  }

  /** Two items: 10 x 2 and 6 x 1 give 26.00 with free shipping, 2.08 tax, 28.08 total. */
  lemma ExampleFreeShipping()
    ensures var cart := [LineItem(Num(1), "A", 10.0, "a.png", 2, "black"),
                         LineItem(Num(2), "B", 6.0, "b.png", 1, "black")];
            CalculateTotals(cart) == Summary(26.0, 0.0, 2.08, 28.08, 3)
  {
    var cart := [LineItem(Num(1), "A", 10.0, "a.png", 2, "black"),
                 LineItem(Num(2), "B", 6.0, "b.png", 1, "black")];
    assert cart[1..][1..] == [];
  }

  /** One item at 5 gives 5.00, 5.99 shipping, 0.40 tax, 11.39 total. */
  lemma ExampleFlatFee()
    ensures var cart := [LineItem(Num(1), "A", 5.0, "a.png", 1, "black")];
            CalculateTotals(cart) == Summary(5.0, 5.99, 0.4, 11.39, 1)
  {
    var cart := [LineItem(Num(1), "A", 5.0, "a.png", 1, "black")];
    assert cart[1..] == [];
  }

  /** An emptied cart shows nothing owed but the fee and cannot be checked out. */
  lemma EmptyCartSummary()
    ensures CalculateTotals([]) == Summary(0.0, ShippingFee, 0.0, ShippingFee, 0)
    ensures !CheckoutEnabled([])
  {
  }
}

=== FILE: wrappers.dfy ===
/** Absence and failure, as the cart store meets them: an input field that was
    not supplied, and a stored value that cannot be read back. */
module Wrappers {

  /** A value that may be absent (`undefined` on the JavaScript side). */
  datatype Option<+T> = None | Some(value: T)

  /** The outcome of an operation that can throw: either a value or the error. */
  datatype Result<+T, +E> = Success(value: T) | Failure(error: E)
}
